=== FILE: README.md ===
# Parallel range downloader: a Dafny model

This project models the pure core of a command-line downloader. The
downloader splits a remote file of `L` bytes into `N` inclusive byte ranges.
It fetches each range into its own part file `<output>.part<i>` with a
`Range: bytes=<start>-<end>` request, then concatenates the part files in
index order into `<output>`, deleting each part after copying it. The
repository holds two near-identical programs:

- `mac-parallel-downloader/main.go` checks that the part count is a positive
  integer, and reports copy errors during the merge.
- `mainv1.go` discards the part count's parse error, and ignores copy errors
  during the merge.

Both are modelled. The modules follow the pipeline:

| module | file | what it holds |
|---|---|---|
| `Wrappers` | `wrappers.dfy` | `Option` |
| `Decimal` | `decimal.dfy` | `%d` formatting and `strconv.Atoi` syntax, with a round trip |
| `Ranges` | `ranges.dfy` | `PartSpec`, the planner `Plan(L, N)`, partition and reassembly lemmas |
| `RangeHeader` | `range_header.dfy` | the header text, and a reader for the int-range of section 14.1.2 of RFC 9110 |
| `PartFiles` | `part_files.dfy` | bytes, the abstract file system `map<string, seq<byte>>`, part names, the workers' file writes |
| `Merge` | `merge.dfy` | `mergeParts` of both programs as loops, with injectable create and copy failures |
| `Downloader` | `downloader.dfy` | `main` of both programs: part-count rule, planning, workers, merge, end-to-end round trip |

The model makes these assumptions:

- The file size `L` and the per-part transfer results are inputs.
- A worker either fails before creating its part file, or leaves in it the
  bytes it copied (`FetchOutcome`). It may have read more from the body than
  it wrote, when a write to the part file failed, because the worker ignores
  `io.Copy`'s error.
- An honest server answers each planned range that covers at least one byte
  with exactly those bytes of the resource (`HonestServer`). Neither program
  checks for a 206 status, so the code does not enforce this. An empty range
  has no valid header, and what a server sends for it is left open.

## Model

| member | source | states |
|---|---|---|
| `Decimal.NatToDecimal` | mac-parallel-downloader/main.go:54 | `%d` of a part index: a non-empty run of digits with no leading zero unless the value is 0 |
| `Decimal.IntToDecimal` | mac-parallel-downloader/main.go:44 | `%d` of a range offset: starts with `-` exactly when the offset is negative, and is the plain digits otherwise |
| `Decimal.ParseInt` | mac-parallel-downloader/main.go:100 | Atoi succeeds exactly on a non-empty run of digits, or a `+` or `-` followed by one; a negative result needs a leading `-` |
| `Decimal.DigitsValueOfNatToDecimal` | mac-parallel-downloader/main.go:54 | reading back the digits of a part index gives the index |
| `Decimal.NatToDecimalInjective` | mac-parallel-downloader/main.go:76 | distinct part indices have distinct decimal texts |
| `Decimal.ParseIntOfIntToDecimal` | mainv1.go:78 | Atoi reads back exactly what `%d` writes, for every integer |
| `Ranges.Plan` | mac-parallel-downloader/main.go:116-125 | the partition loop yields N parts indexed 0..N-1; the first starts at 0 and the last ends at L-1 |
| `Ranges.PlanLoop` | mac-parallel-downloader/main.go:116-125 | the partition loop, with Go's truncating division, builds exactly `Plan(L, N)` for N >= 1, and no part for a negative N (mainv1.go:87-95) |
| `Ranges.PlanContiguous` | mac-parallel-downloader/main.go:120-125 | each part ends right before the next starts, no part has negative size, and every start is non-negative |
| `Ranges.PlanPartitions` | mac-parallel-downloader/main.go:116-125 | every offset in [0, L-1] lies in some part; no part reaches outside it; no offset lies in two parts; the sizes `end-start+1` sum to L |
| `Ranges.LastPartSize` | mac-parallel-downloader/main.go:123-124 | the last part has `L-(N-1)*(L div N)` bytes, at least one chunk and less than a chunk plus N |
| `Ranges.SinglePart` | mac-parallel-downloader/main.go:116-125 | with N = 1 the plan is the single range [0, L-1] |
| `Ranges.DegeneratePlan` | mainv1.go:87-95 | with L < N every part but the last is the empty range [0, -1] |
| `Ranges.DegenerateLastPart` | mainv1.go:93-95 | with L < N the last part is [0, L-1], the whole resource |
| `Ranges.PlanPartNonEmpty` | mainv1.go:87-95 | a part covers at least one byte iff L >= N, or it is the last part and L >= 1 |
| `Ranges.TenBytesThreeParts` | mac-parallel-downloader/main.go:116-125 | L = 10, N = 3 gives [0,2], [3,5], [6,9] |
| `Ranges.TenMillionBytesFourParts` | mainv1.go:87-95 | L = 10,000,000, N = 4 gives four ranges of 2,500,000 bytes |
| `Ranges.StartsAscend` | mac-parallel-downloader/main.go:120-125 | along contiguous ranges, starts ascend and each range ends before any later one starts |
| `Ranges.ContiguousCovers` | mac-parallel-downloader/main.go:120-125 | contiguous ranges leave no gap between the first start and the last end |
| `Ranges.SumSizesTelescopes` | mac-parallel-downloader/main.go:33 | the sizes of contiguous ranges add up to their overall span |
| `Ranges.ConcatContiguousSlices` | mac-parallel-downloader/main.go:75-88 | the slices of contiguous ranges, concatenated in order, are the source between the first start and the last end |
| `Ranges.PlanReassembles` | mac-parallel-downloader/main.go:116-125 | the planned slices of any source, concatenated in index order, are the whole source |
| `RangeHeader.Header` | mac-parallel-downloader/main.go:44 | the header text starts with the `bytes=` unit and, for a start >= 0, reads back as the int-range (start, end) iff start <= end; an empty range such as [0, -1] gives the invalid `bytes=0--1` |
| `RangeHeader.PlanHeaders` | mainv1.go:28 | every planned part's header is a valid int-range for its offsets, except the empty parts of a plan with L < N |
| `PartFiles.PartName` | mac-parallel-downloader/main.go:54 | a part name extends the destination name, so it is never the destination itself |
| `PartFiles.PartNameInjective` | mac-parallel-downloader/main.go:76 | the name a worker writes and the name the merge opens coincide only for the same index |
| `PartFiles.PartNameNotEarlier` | mainv1.go:58 | part i is not among the names of the parts before it |
| `PartFiles.WritePart` | mac-parallel-downloader/main.go:47-65 | one worker touches only its own part file: after a request or create error nothing changes, otherwise the part file holds the body |
| `PartFiles.RunWorkers` | mac-parallel-downloader/main.go:120-131 | the workers of a plan only create or overwrite files; every file present before is present after |
| `PartFiles.WritePartsCommute` | mac-parallel-downloader/main.go:127-131 | two workers of distinct parts give the same file system in either order, so swapping the finishing order of two goroutines changes nothing |
| `PartFiles.WorkersWrite` | mac-parallel-downloader/main.go:54-65 | after all workers ran in index order, each part whose worker got a body holds exactly that body |
| `PartFiles.WorkersFrame` | mac-parallel-downloader/main.go:47-65 | a file whose name no worker wrote is present and unchanged after the workers exactly when it was before |
| `PartFiles.HonestBodies` | mac-parallel-downloader/main.go:43-65 | against an honest server, when every part covers at least one byte, every part is fetched and the bodies concatenate to the requested slices |
| `Merge.Copied` | mac-parallel-downloader/main.go:82 | a copy appends a prefix of the part, and all of it unless the copy fails |
| `Merge.FirstFault` | mac-parallel-downloader/main.go:75-88 | the least index whose part is missing or whose copy fails, or the loop end |
| `Merge.FirstMissing` | mainv1.go:57-66 | the least index whose part is missing, or the loop end |
| `Merge.MergeParts` | mac-parallel-downloader/main.go:68-90 | a failed create changes nothing. Otherwise, with k the first faulty part: parts before k are appended in order and removed; a missing part k gives an open error and is left alone; a failed copy of k appends what it got, removes k, and returns a copy error; other files are unchanged |
| `Merge.MergePartsV1` | mainv1.go:50-68 | as above, but only a missing part stops the merge; failed copies contribute their prefix and are not reported |
| `Merge.WorkersWroteAll` | mac-parallel-downloader/main.go:77 | when every worker got a body, the merge can open every part, and each holds its body |
| `Merge.AppendedBodies` | mac-parallel-downloader/main.go:82 | without failed copies, appending files that hold the bodies yields the bodies in index order |
| `Merge.AppendedWorkers` | mac-parallel-downloader/main.go:75-88 | without failed copies, what is appended after the workers ran is the bodies in index order |
| `Downloader.AtoiPartCount` | mainv1.go:78 | mainv1.go's count is 0 whenever Atoi fails, and a non-zero count is exactly what Atoi read |
| `Downloader.AtoiPartCountOfDecimal` | mainv1.go:78 | every count written in decimal, zero and negative ones included, is read back unchanged |
| `Downloader.ParsePartCount` | mac-parallel-downloader/main.go:100-104 | a part count is accepted only when Atoi succeeds and gives at least 1 |
| `Downloader.PartCountFromDecimal` | mac-parallel-downloader/main.go:100-104 | a decimal count is accepted iff it is at least 1, and is then read back unchanged |
| `Downloader.MissingPartStops` | mac-parallel-downloader/main.go:77-80 | a part whose worker failed, with no earlier file of that name, stops either merge at or before its index |
| `Downloader.AllWritten` | mac-parallel-downloader/main.go:54 | when every worker succeeds, the names written are exactly the N part names |
| `Downloader.MergedFilesKept` | mac-parallel-downloader/main.go:84 | a full merge after the workers removes exactly the part files and keeps every other file as it was |
| `Downloader.MainAfterMerge` | mac-parallel-downloader/main.go:131-137 | main.go's merge run on what the workers left: with every part written and no failed copy, no error and the bodies delivered; a failed part or failed copy gives an error at or before its index. `Downloader.RunMain` shows that a failed part blocks the run before this merge |
| `Downloader.V1AfterMerge` | mainv1.go:100-106 | after mainv1.go's merge: with every part written, no error even with failed copies, and the bodies delivered when no copy failed; a failed part gives an open error at or before its index |
| `Downloader.MergeAfterAllWritten` | mainv1.go:100-102 | once every part is written, the merge reaches its end, removes all parts and keeps other files; without failed copies the destination holds exactly the bodies |
| `Downloader.HonestDelivery` | mac-parallel-downloader/main.go:116-135 | against an honest server, for a resource of at least N bytes, the bodies of the plan concatenate to the resource |
| `Downloader.IgnoredRangeCorrupts` | mainv1.go:87-97 | for 1 <= L < N, a server that ignores the invalid `bytes=0--1` sends the whole resource for each empty part, so the bodies have N*L bytes and differ from the resource |
| `Downloader.CopiedNoLonger` | mainv1.go:63 | failed copies never add bytes: the destination is no longer than the bodies |
| `Downloader.RunMain` | mac-parallel-downloader/main.go:98-135 | a bad count stops the run before any I/O; a failed size lookup touches no file. When a part is empty, its worker failed or fewer bytes than its range were read from its body, the run blocks at `p.Wait()` with the destination untouched. Otherwise, with no failed merge operation, the run completes with the bodies in part order, part files gone and other files kept; for an honest server and L >= N the destination equals the resource. A failed copy during the merge ends in a copy error at or before its index |
| `Downloader.WorkersKeepDestination` | mac-parallel-downloader/main.go:54 | the workers never write the destination itself, so it is as it was before them |
| `Downloader.HonestBarsComplete` | mac-parallel-downloader/main.go:34 | against an honest server with L >= N, every part's progress bar reaches its total, so `p.Wait()` returns |
| `Downloader.RunV1` | mainv1.go:76-102 | a non-numeric or zero count panics once the size is known, touching no file. A negative count yields an empty destination and success. With all parts written the run completes despite failed copies, and the destination equals the resource for an honest server when no copy fails and L >= N. A failed part ends in an open error at or before its index |

## Left out

- The HEAD request and the `Content-Length` lookup (`getFileSize`) are network code. The size is an input: a `nat`, or `None` for any failure of the lookup. A negative `Content-Length`, which `strconv.Atoi` would accept, is not modelled.
- The GET requests, the `User-Agent` header, and reading the response body are network code. Each worker's result is an input `FetchOutcome`.
- Neither program checks for a 206 (Partial Content) status. That the server honours each range is the `HonestServer` assumption, not a checked property.
- `PartFiles.RunWorkers`: the workers are applied in index order. Other finishing orders are covered by `PartFiles.WritePartsCommute`, which swaps two workers; a theorem over every permutation is not stated.
- `Downloader.RunMain` and `Downloader.RunV1`: the destination is proved equal to the resource only when L >= N. For L < N the server's answer to an invalid range decides the outcome (`Downloader.IgnoredRangeCorrupts`).
- Goroutines and `sync.WaitGroup` are concurrency. Workers write pairwise distinct files and the merge starts after the join, so they are applied as one step before the merge.
- The `mpb` progress bars are modelled only by when they complete (`BarCompletes`). A bar's total is its part's size and its counter is the bytes read from the body. mpb's documented behaviour is taken as given: `p.Wait()` returns only when every bar has reached a positive total. The mpb library is not part of this model.
- The bar decorators, `time.Now` and the throughput printing are UI, wall-clock time and floating point.
- The `os.Args` length check and the usage and error messages are command-line plumbing.
- Go's 64-bit `int`: the overflow of `i*chunkSize` and Atoi's range error are not modelled. Integers are unbounded.
- Opening a part fails only when the file is missing. Permission and other open errors are not distinguished.
- `os.Remove` and `Close` errors are ignored by the code. Removal always succeeds in the model.
- `Downloader.RunMain`: when creating the destination fails, the contract gives the status only, not the part files the workers left behind.
- `Downloader.RunV1`: when creating the destination fails, the contract gives the status only; for a negative count it also gives an unchanged file system. For a positive count it describes failed copies by the destination's length bound, not byte by byte. `Merge.MergePartsV1` gives the exact bytes.

## Where the code goes wrong

The model follows the code.

- Neither program rejects a resource with fewer bytes than parts (L < N). Every part but the last then sends `bytes=0--1`, which is not a valid int-range (`RangeHeader.PlanHeaders`); for an empty resource every part sends it. A server ignores or rejects such a range (section 14.2 of RFC 9110), and neither program checks the status.
  - In `mainv1.go`, a server that ignores the range sends the whole resource for each of those parts. The run reports success with a destination of N*L bytes (`Downloader.IgnoredRangeCorrupts`, with the clause of `Downloader.RunV1` that gives the destination as the bodies).
  - In `main.go` the progress bar of an empty part has total 0 and never completes, so the run blocks at `p.Wait()` (main.go:132) and never merges (`Downloader.RunMain`, status `Blocked`).
  - In both programs the round trip to the resource holds only for L >= N.
- Neither program stops when a worker fails.
  - `mainv1.go` merges regardless. It truncates the destination, appends and deletes the parts before the first missing one, and then stops with an open error (`Merge.MergePartsV1`, `Downloader.RunV1`). A part file left over from an earlier run under the same name is merged in place of a failed part.
  - `main.go` never reaches its merge: the failed worker's bar, or the bar of a body shorter than its range, never completes, and the run blocks at `p.Wait()` (`Downloader.RunMain`). Its `mergeParts` (`Merge.MergeParts`) would report the missing part, but the run does not get there.
- Neither worker checks `io.Copy`'s error. When a write to a part file fails after the whole body was read, main.go's bar still completes. Both programs then merge the short part and report success (the `Delivered` clause of `Downloader.RunMain`, which gives the destination as the bytes actually written).
- `mainv1.go` discards the part count's parse error. A non-numeric or zero count divides by zero after the size lookup. A negative count reports success with an empty destination (`Downloader.RunV1`).

=== FILE: decimal.dfy ===
/**
 * Decimal text of integers: the `%d` verb of Go's fmt package (used for part
 * names and Range headers) and the syntax accepted by `strconv.Atoi` (used for
 * the part-count argument). Integers are unbounded here; the 64-bit range
 * check of `Atoi` is not modelled.
 */
module Decimal {
  import opened Wrappers

  predicate IsDigit(c: char) {
    '0' <= c <= '9'
  }

  predicate AllDigits(s: string) {
    forall k :: 0 <= k < |s| ==> IsDigit(s[k])
  }

  function DigitValue(c: char): nat
    requires IsDigit(c)
  {
    (c as int) - ('0' as int)
  }

  function DigitChar(d: nat): (c: char)
    requires d < 10
    ensures IsDigit(c) && DigitValue(c) == d
  {
    (('0' as int) + d) as char
  }

  /** The value of a non-empty or empty run of digits, most significant first. */
  function DigitsValue(s: string): nat
    requires AllDigits(s)
  {
    if |s| == 0 then 0 else DigitsValue(s[..|s| - 1]) * 10 + DigitValue(s[|s| - 1])
  }

  /** `fmt.Sprintf("%d", n)` for a non-negative n: digits only, no leading zero. */
  function NatToDecimal(n: nat): (s: string)
    ensures |s| >= 1 && AllDigits(s)
    ensures s[0] == '0' ==> n == 0
  {
    if n < 10 then [DigitChar(n)] else NatToDecimal(n / 10) + [DigitChar(n % 10)]
  }

  /** `fmt.Sprintf("%d", i)` for any int: a minus sign before the digits of |i| when negative. */
  function IntToDecimal(i: int): (s: string)
    ensures |s| >= 1
    ensures s[0] == '-' <==> i < 0
    ensures i >= 0 ==> s == NatToDecimal(i)
  {
    if i < 0 then "-" + NatToDecimal(-i) else NatToDecimal(i)
  }

  /**
   * `strconv.Atoi` syntax: an optional `+` or `-` followed by at least one
   * decimal digit, nothing else. None stands for Atoi's syntax error.
   */
  function ParseInt(s: string): (r: Option<int>)
    ensures r.Some? <==> || (|s| >= 1 && AllDigits(s))
                         || (|s| >= 2 && (s[0] == '+' || s[0] == '-') && AllDigits(s[1..]))
    ensures r.Some? && r.value < 0 ==> s[0] == '-'
  {
    if |s| == 0 then None
    else if s[0] == '+' || s[0] == '-' then
      var digits := s[1..];
      if |digits| == 0 || !AllDigits(digits) then None
      else
        var magnitude: int := DigitsValue(digits);
        Some(if s[0] == '-' then -magnitude else magnitude)
    else if AllDigits(s) then Some(DigitsValue(s))
    else None
  }

  /** Reading back the digits `%d` writes for n gives n. */
  lemma {:induction false} DigitsValueOfNatToDecimal(n: nat)
    ensures DigitsValue(NatToDecimal(n)) == n
  {
    if n >= 10 {
      DigitsValueOfNatToDecimal(n / 10);
      var s := NatToDecimal(n);
      assert s[..|s| - 1] == NatToDecimal(n / 10);
    }
  }

  /** Distinct naturals have distinct decimal texts. */
  lemma NatToDecimalInjective(m: nat, n: nat)
    requires NatToDecimal(m) == NatToDecimal(n)
    ensures m == n
  {
    DigitsValueOfNatToDecimal(m);
    DigitsValueOfNatToDecimal(n);
  }

  /** Atoi reads back exactly what `%d` writes, for every int. */
  lemma ParseIntOfIntToDecimal(i: int)
    ensures ParseInt(IntToDecimal(i)) == Some(i)
  {
    var s := IntToDecimal(i);
    if i < 0 {
      var digits := NatToDecimal(-i);
      assert s == "-" + digits;
      assert s[1..] == digits;
      DigitsValueOfNatToDecimal(-i);
    } else {
      assert s[0] != '+' && s[0] != '-';
      DigitsValueOfNatToDecimal(i);
    }
  }
}

=== FILE: downloader.dfy ===
/**
 * `main` of both variants after argument-count checking: read the part
 * count, look up the size, plan the ranges, let one worker per part write
 * its part file, then merge. The size lookup and the workers' network
 * transfers are parameters: `size` is what the HEAD request produced (None
 * for any failure) and `fetch` says what each part's worker achieved. The
 * workers run concurrently in the program; the merge only starts after all
 * of them have returned, so they are applied here as one step before it.
 */
module Downloader {
  import opened Wrappers
  import opened Decimal
  import opened Ranges
  import opened PartFiles
  import opened Merge

  /**
   * How a run ends. `DivideByZero` is the runtime panic of `size / partCount`
   * with a zero count. `Blocked` is main.go waiting forever for a progress
   * bar that cannot complete: the merge is never reached.
   */
  datatype Status = InvalidPartCount | SizeUnavailable | DivideByZero | Blocked | MergeFailed(error: MergeError) | Complete

  /** The part-count rule of main.go: accepted only when Atoi succeeds and the count is positive. */
  function ParsePartCount(arg: string): (r: Option<nat>)
    ensures r.Some? ==> r.value >= 1 && ParseInt(arg) == Some(r.value as int)
    ensures r.None? ==> ParseInt(arg).None? || ParseInt(arg).value <= 0
  {
    match ParseInt(arg)
    case Some(n) => if n > 0 then Some(n) else None
    case None => None
  }

  /** A count written in decimal is accepted exactly when it is at least 1, and then read back unchanged. */
  lemma PartCountFromDecimal(n: int)
    ensures ParsePartCount(IntToDecimal(n)) == if n >= 1 then Some(n) else None
  {
    ParseIntOfIntToDecimal(n);
  }

  /**
   * mainv1.go discards Atoi's error; on a syntax error Atoi's value is 0, so
   * a zero count stands both for "0" and for text that is not a number.
   */
  function AtoiPartCount(arg: string): (r: int)
    ensures ParseInt(arg).None? ==> r == 0
    ensures r != 0 ==> ParseInt(arg) == Some(r)
  {
    ParseInt(arg).GetOr(0)
  }

  /** mainv1.go reads any count written in decimal, zero and negative ones included, back unchanged. */
  lemma AtoiPartCountOfDecimal(n: int)
    ensures AtoiPartCount(IntToDecimal(n)) == n
  {
    ParseIntOfIntToDecimal(n);
  }

  /** No copy of a part below `count` is cut short. */
  predicate NoShortCopies(faults: IoFaults, count: int) {
    forall i :: 0 <= i < count ==> i !in faults.shortCopies
  }

  /**
   * After a merge of `count` parts: the destination exists, the part files
   * are gone, and every other file is as it was in `fs`.
   */
  predicate Cleaned(fs: FileSystem, fs': FileSystem, filename: string, count: nat) {
    && filename in fs'
    && (forall i :: 0 <= i < count ==> PartName(filename, i) !in fs')
    && (forall name :: name in fs && name != filename && name !in PartNames(filename, count) ==>
          name in fs' && fs'[name] == fs[name])
  }

  /** A clean merge whose destination holds exactly `content`. */
  predicate Delivered(fs: FileSystem, fs': FileSystem, filename: string, count: nat, content: seq<byte>) {
    Cleaned(fs, fs', filename, count) && fs'[filename] == content
  }

  /** A part that did not reach the disk and was not already there blocks the merge at or before its index. */
  lemma MissingPartStops(fs: FileSystem, filename: string, parts: seq<PartSpec>, fetch: PartSpec -> FetchOutcome,
                         faults: IoFaults, i: nat)
    requires Indexed(parts) && i < |parts|
    requires !fetch(parts[i]).Fetched? && PartName(filename, i) !in fs
    ensures !Opens(RunWorkers(fs, filename, parts, fetch), filename, i)
    ensures FirstFault(RunWorkers(fs, filename, parts, fetch), filename, faults, |parts|, 0) <= i
    ensures FirstMissing(RunWorkers(fs, filename, parts, fetch), filename, |parts|, 0) <= i
  {
    if PartName(filename, i) in WrittenNames(filename, parts, fetch) {
      var j :| 0 <= j < |parts| && fetch(parts[j]).Fetched? && PartName(filename, parts[j].index) == PartName(filename, i);
      PartNameInjective(filename, i, j);
    }
    WorkersFrame(fs, filename, parts, fetch, PartName(filename, i));
  }

  /** When every worker wrote its part, the part names written are exactly those of the plan. */
  lemma AllWritten(filename: string, parts: seq<PartSpec>, fetch: PartSpec -> FetchOutcome)
    requires Indexed(parts) && AllFetched(parts, fetch)
    ensures WrittenNames(filename, parts, fetch) == PartNames(filename, |parts|)
  {
    forall i | 0 <= i < |parts|
      ensures PartName(filename, i) in WrittenNames(filename, parts, fetch)
    {
      assert fetch(parts[i]).Fetched? && parts[i].index == i;
    }
  }

  /**
   * Once every worker has written its part, a merge reaches the end of its
   * loop and leaves the destination, the part files and all other files as
   * `Cleaned` says, with at most the bodies' bytes in the destination and
   * exactly them when no copy is cut short.
   */
  lemma MergeAfterAllWritten(fs: FileSystem, filename: string, parts: seq<PartSpec>, fetch: PartSpec -> FetchOutcome,
                             faults: IoFaults)
    requires Indexed(parts) && AllFetched(parts, fetch)
    ensures var written := RunWorkers(fs, filename, parts, fetch);
            && FirstMissing(written, filename, |parts|, 0) == |parts|
            && Cleaned(fs, AfterMerge(written, filename, faults, |parts|), filename, |parts|)
            && |AfterMerge(written, filename, faults, |parts|)[filename]| <= |Bodies(parts, fetch)|
            && (NoShortCopies(faults, |parts|) ==>
                  && FirstFault(written, filename, faults, |parts|, 0) == |parts|
                  && AfterMerge(written, filename, faults, |parts|)[filename] == Bodies(parts, fetch))
  {
    var written := RunWorkers(fs, filename, parts, fetch);
    var n := |parts|;
    WorkersWroteAll(fs, filename, parts, fetch);
    assert parts[..n] == parts;
    CopiedNoLonger(written, filename, parts, fetch, faults, n);
    MergedFilesKept(fs, filename, parts, fetch, faults);
    if NoShortCopies(faults, n) {
      AppendedBodies(written, filename, parts, fetch, faults, n);
    }
  }

  /** A merge of all parts after the workers ran keeps every file that is neither the destination nor a part. */
  lemma MergedFilesKept(fs: FileSystem, filename: string, parts: seq<PartSpec>, fetch: PartSpec -> FetchOutcome,
                        faults: IoFaults)
    requires Indexed(parts) && AllFetched(parts, fetch)
    ensures forall j :: 0 <= j < |parts| ==> Opens(RunWorkers(fs, filename, parts, fetch), filename, j)
    ensures Cleaned(fs, AfterMerge(RunWorkers(fs, filename, parts, fetch), filename, faults, |parts|), filename, |parts|)
  {
    var written := RunWorkers(fs, filename, parts, fetch);
    WorkersWroteAll(fs, filename, parts, fetch);
    AllWritten(filename, parts, fetch);
    var merged := AfterMerge(written, filename, faults, |parts|);
    forall name | name in fs && name != filename && name !in PartNames(filename, |parts|)
      ensures name in merged && merged[name] == fs[name]
    {
      WorkersFrame(fs, filename, parts, fetch, name);
    }
  }

  /**
   * Against an honest server, the bodies of a plan concatenate to the
   * resource, provided it has at least as many bytes as there are parts, so
   * that every part asks for a valid range.
   */
  lemma HonestDelivery(source: seq<byte>, count: nat, fetch: PartSpec -> FetchOutcome)
    requires 1 <= count <= |source| && HonestServer(source, Plan(|source|, count), fetch)
    ensures AllFetched(Plan(|source|, count), fetch) && Bodies(Plan(|source|, count), fetch) == source
  {
    forall i | 0 <= i < count
      ensures Plan(|source|, count)[i].Size() >= 1
    {
      PlanPartNonEmpty(|source|, count, i);
    }
    HonestBodies(source, Plan(|source|, count), fetch);
    PlanReassembles(source, count);
  }

  /**
   * With fewer bytes than parts, every part but the last asks for the
   * invalid `bytes=0--1`. A server that ignores it sends the whole resource
   * for each of those parts, so the bodies are the resource `count` times
   * over: a run that completes delivers a corrupted file and reports success.
   */
  lemma IgnoredRangeCorrupts(source: seq<byte>, count: nat, fetch: PartSpec -> FetchOutcome)
    requires 1 <= |source| < count
    requires RangeIgnoringServer(source, Plan(|source|, count), fetch)
    ensures AllFetched(Plan(|source|, count), fetch)
    ensures |Bodies(Plan(|source|, count), fetch)| == count * |source|
    ensures Bodies(Plan(|source|, count), fetch) != source
  {
    var parts := Plan(|source|, count);
    forall i | 0 <= i < count
      ensures fetch(parts[i]) == Fetched(source, 0)
    {
      IgnoredPartBody(source, count, fetch, i);
    }
    BodiesLength(parts, fetch, |source|);
    assert count * |source| >= 2 * |source|;
  }

  /** With fewer bytes than parts, each part's body from a range-ignoring server is the whole resource. */
  lemma IgnoredPartBody(source: seq<byte>, count: nat, fetch: PartSpec -> FetchOutcome, i: nat)
    requires 1 <= |source| < count && i < count
    requires RangeIgnoringServer(source, Plan(|source|, count), fetch)
    ensures fetch(Plan(|source|, count)[i]) == Fetched(source, 0)
  {
    if i == count - 1 {
      DegenerateLastPart(|source|, count);
    } else {
      PlanPartNonEmpty(|source|, count, i);
    }
    WholeOrIgnored(source, Plan(|source|, count), fetch, i);
  }

  /** A part that is empty, or spans the whole resource, gets the whole resource from a range-ignoring server. */
  lemma WholeOrIgnored(source: seq<byte>, parts: seq<PartSpec>, fetch: PartSpec -> FetchOutcome, i: nat)
    requires RangeIgnoringServer(source, parts, fetch) && i < |parts|
    requires parts[i].Size() < 1 || (parts[i].start == 0 && parts[i].end == |source| - 1)
    ensures fetch(parts[i]) == Fetched(source, 0)
  {
    if parts[i].Size() >= 1 {
      assert Slice(source, parts[i]) == source;
    }
  }

  /** Short copies never add bytes: what reaches the destination is at most the bodies. */
  lemma {:induction false} CopiedNoLonger(written: FileSystem, filename: string, parts: seq<PartSpec>,
                                          fetch: PartSpec -> FetchOutcome, faults: IoFaults, k: nat)
    requires Indexed(parts) && AllFetched(parts, fetch) && k <= |parts|
    requires forall j :: 0 <= j < |parts| ==> Opens(written, filename, j) &&
                                              written[PartName(filename, j)] == fetch(parts[j]).data
    ensures |Appended(written, filename, faults, k)| <= |Bodies(parts[..k], fetch)|
  {
    if k > 0 {
      CopiedNoLonger(written, filename, parts, fetch, faults, k - 1);
      var prefix := parts[..k];
      assert prefix[..k - 1] == parts[..k - 1];
      assert prefix[k - 1] == parts[k - 1];
    }
  }

  /** What main.go's merge leaves once the workers of a plan have run. */
  lemma MainAfterMerge(fs: FileSystem, filename: string, parts: seq<PartSpec>, fetch: PartSpec -> FetchOutcome,
                       faults: IoFaults, fs': FileSystem, err: Option<MergeError>)
    requires Indexed(parts) && !faults.createFails
    requires MergeOutcome(RunWorkers(fs, filename, parts, fetch), filename, |parts|, faults, fs', err)
    ensures filename in fs'
    ensures AllFetched(parts, fetch) && NoShortCopies(faults, |parts|) ==>
              err.None? && Delivered(fs, fs', filename, |parts|, Bodies(parts, fetch))
    ensures forall i :: 0 <= i < |parts| && !fetch(parts[i]).Fetched? && PartName(filename, i) !in fs ==>
              err.Some? && !err.value.CreateFailed? && err.value.index <= i
    ensures AllFetched(parts, fetch) ==> forall i :: 0 <= i < |parts| && i in faults.shortCopies ==>
              err.Some? && err.value.CopyFailed? && err.value.index <= i
  {
    forall i | 0 <= i < |parts| && !fetch(parts[i]).Fetched? && PartName(filename, i) !in fs
      ensures err.Some? && !err.value.CreateFailed? && err.value.index <= i
    {
      MissingPartStops(fs, filename, parts, fetch, faults, i);
    }
    if AllFetched(parts, fetch) {
      MergeAfterAllWritten(fs, filename, parts, fetch, faults);
    }
  }

  /** What mainv1.go's merge leaves once the workers of a plan have run. */
  lemma V1AfterMerge(fs: FileSystem, filename: string, parts: seq<PartSpec>, fetch: PartSpec -> FetchOutcome,
                     faults: IoFaults, fs': FileSystem, err: Option<MergeError>)
    requires Indexed(parts) && !faults.createFails
    requires MergeOutcomeV1(RunWorkers(fs, filename, parts, fetch), filename, |parts|, faults, fs', err)
    ensures AllFetched(parts, fetch) ==>
              && err.None? && Cleaned(fs, fs', filename, |parts|)
              && |fs'[filename]| <= |Bodies(parts, fetch)|
              && (NoShortCopies(faults, |parts|) ==> fs'[filename] == Bodies(parts, fetch))
    ensures forall i :: 0 <= i < |parts| && !fetch(parts[i]).Fetched? && PartName(filename, i) !in fs ==>
              err.Some? && err.value.OpenFailed? && err.value.index <= i
  {
    forall i | 0 <= i < |parts| && !fetch(parts[i]).Fetched? && PartName(filename, i) !in fs
      ensures err.Some? && err.value.OpenFailed? && err.value.index <= i
    {
      MissingPartStops(fs, filename, parts, fetch, faults, i);
    }
    if AllFetched(parts, fetch) {
      MergeAfterAllWritten(fs, filename, parts, fetch, faults);
    }
  }

  /** The plan main.go builds once both the count and the size are known. */
  function MainPlan(countArg: string, size: Option<nat>): seq<PartSpec>
    requires ParsePartCount(countArg).Some? && size.Some?
  {
    Plan(size.value, ParsePartCount(countArg).value)
  }

  /**
   * main.go gives each part a progress bar whose total is the part's size,
   * and its counter advances by the bytes the worker reads from the body,
   * whether or not they reach the part file. A bar completes only once a
   * positive total is reached, so an empty part, a worker that returned
   * early, or a body shorter than its range leaves the bar incomplete.
   */
  predicate BarCompletes(p: PartSpec, outcome: FetchOutcome) {
    p.Size() >= 1 && outcome.Fetched? && outcome.Read() >= p.Size()
  }

  /** Every bar of the plan completes, so `p.Wait()` in main.go returns. */
  predicate AllBarsComplete(parts: seq<PartSpec>, fetch: PartSpec -> FetchOutcome) {
    forall i :: 0 <= i < |parts| ==> BarCompletes(parts[i], fetch(parts[i]))
  }

  /** The destination is never a part name, so the workers leave it as it was. */
  lemma WorkersKeepDestination(fs: FileSystem, filename: string, parts: seq<PartSpec>, fetch: PartSpec -> FetchOutcome)
    requires Indexed(parts)
    ensures filename in RunWorkers(fs, filename, parts, fetch) <==> filename in fs
    ensures filename in fs ==> RunWorkers(fs, filename, parts, fetch)[filename] == fs[filename]
  {
    WorkersFrame(fs, filename, parts, fetch, filename);
  }

  /** Against an honest server, a resource of at least as many bytes as parts completes every bar. */
  lemma HonestBarsComplete(source: seq<byte>, count: nat, fetch: PartSpec -> FetchOutcome)
    requires 1 <= count <= |source| && HonestServer(source, Plan(|source|, count), fetch)
    ensures AllBarsComplete(Plan(|source|, count), fetch)
  {
    var parts := Plan(|source|, count);
    PlanReassembles(source, count);
    forall i | 0 <= i < count
      ensures BarCompletes(parts[i], fetch(parts[i]))
    {
      PlanPartNonEmpty(|source|, count, i);
      assert |Slice(source, parts[i])| == parts[i].Size();
    }
  }

  /**
   * main.go. A part count that is not a positive integer ends the run before
   * anything else happens; a failed size lookup ends it with no file touched.
   * After the workers, main.go waits for every progress bar: when a part is
   * empty, a worker failed, or a body is shorter than its range, the wait
   * never returns and the destination is never touched. Otherwise, with no
   * file operation of the merge failing, the run completes, the destination
   * holds the bodies in part order, the part files are gone and every other
   * file is unchanged; against an honest server, for a resource of at least
   * as many bytes as parts, the destination equals the resource. A copy cut
   * short during the merge is reported as a merge error.
   */
  method RunMain(countArg: string, filename: string, size: Option<nat>, fetch: PartSpec -> FetchOutcome,
                 faults: IoFaults, fs: FileSystem)
    returns (status: Status, fs': FileSystem)
    ensures ParsePartCount(countArg).None? ==> status == InvalidPartCount && fs' == fs
    ensures ParsePartCount(countArg).Some? && size.None? ==> status == SizeUnavailable && fs' == fs
    ensures ParsePartCount(countArg).Some? && size.Some? && !AllBarsComplete(MainPlan(countArg, size), fetch) ==>
              && status == Blocked
              && fs.Keys <= fs'.Keys
              && (filename in fs' <==> filename in fs)
              && (filename in fs ==> fs'[filename] == fs[filename])
    ensures ParsePartCount(countArg).Some? && size.Some? && AllBarsComplete(MainPlan(countArg, size), fetch) ==>
              && (faults.createFails ==> status == MergeFailed(CreateFailed))
              && (!faults.createFails ==> filename in fs')
    ensures ParsePartCount(countArg).Some? && size.Some? && !faults.createFails &&
            AllBarsComplete(MainPlan(countArg, size), fetch) && NoShortCopies(faults, ParsePartCount(countArg).value) ==>
              && status == Complete
              && Delivered(fs, fs', filename, ParsePartCount(countArg).value, Bodies(MainPlan(countArg, size), fetch))
    ensures ParsePartCount(countArg).Some? && size.Some? && !faults.createFails &&
            NoShortCopies(faults, ParsePartCount(countArg).value) ==>
              forall source :: |source| == size.value && ParsePartCount(countArg).value <= |source| &&
                               HonestServer(source, MainPlan(countArg, size), fetch) ==>
                status == Complete && filename in fs' && fs'[filename] == source
    ensures ParsePartCount(countArg).Some? && size.Some? && !faults.createFails &&
            AllBarsComplete(MainPlan(countArg, size), fetch) ==>
              forall i :: 0 <= i < ParsePartCount(countArg).value && i in faults.shortCopies ==>
                status.MergeFailed? && status.error.CopyFailed? && status.error.index <= i
  {
    var parsed := ParsePartCount(countArg);
    if parsed.None? {
      return InvalidPartCount, fs;
    }
    var n := parsed.value;
    if size.None? {
      return SizeUnavailable, fs;
    }
    var parts := PlanLoop(size.value, n);
    var written := RunWorkers(fs, filename, parts, fetch);
    if !AllBarsComplete(parts, fetch) {
      WorkersKeepDestination(fs, filename, parts, fetch);
      forall source | |source| == size.value && n <= |source| && HonestServer(source, parts, fetch)
        ensures false
      {
        HonestBarsComplete(source, n, fetch);
      }
      return Blocked, written;
    }
    assert AllFetched(parts, fetch);
    var err;
    fs', err := MergeParts(written, filename, n, faults);
    status := if err.None? then Complete else MergeFailed(err.value);
    if !faults.createFails {
      MainAfterMerge(fs, filename, parts, fetch, faults, fs', err);
      forall source | |source| == size.value && n <= |source| && HonestServer(source, parts, fetch)
        ensures Bodies(parts, fetch) == source
      {
        HonestDelivery(source, n, fetch);
      }
    }
  }

  /**
   * mainv1.go. A non-numeric count reads as 0 (`AtoiPartCount`), so once the size is known
   * the run panics dividing by zero, having touched no file; a negative
   * count plans no part, and the merge creates an empty destination and
   * reports success. For a positive count where every worker wrote its
   * part, the run completes even when copies are cut short: copy errors are
   * dropped, and only the bytes copied before each error reach the
   * destination. With no short copy, an honest server and at least as many
   * bytes as parts, the destination equals the resource.
   */
  method RunV1(countArg: string, filename: string, size: Option<nat>, fetch: PartSpec -> FetchOutcome,
               faults: IoFaults, fs: FileSystem)
    returns (status: Status, fs': FileSystem)
    ensures size.None? ==> status == SizeUnavailable && fs' == fs
    ensures size.Some? && AtoiPartCount(countArg) == 0 ==> status == DivideByZero && fs' == fs
    ensures size.Some? && AtoiPartCount(countArg) != 0 && faults.createFails ==>
              status == MergeFailed(CreateFailed)
    ensures size.Some? && AtoiPartCount(countArg) < 0 && faults.createFails ==> fs' == fs
    ensures size.Some? && AtoiPartCount(countArg) < 0 && !faults.createFails ==>
              status == Complete && fs' == fs[filename := []]
    ensures size.Some? && AtoiPartCount(countArg) >= 1 && !faults.createFails &&
            AllFetched(Plan(size.value, AtoiPartCount(countArg)), fetch) ==>
              && status == Complete
              && Cleaned(fs, fs', filename, AtoiPartCount(countArg))
              && |fs'[filename]| <= |Bodies(Plan(size.value, AtoiPartCount(countArg)), fetch)|
              && (NoShortCopies(faults, AtoiPartCount(countArg)) ==>
                    fs'[filename] == Bodies(Plan(size.value, AtoiPartCount(countArg)), fetch))
    ensures size.Some? && AtoiPartCount(countArg) >= 1 && !faults.createFails ==>
              forall i :: 0 <= i < AtoiPartCount(countArg) && !fetch(Plan(size.value, AtoiPartCount(countArg))[i]).Fetched? &&
                          PartName(filename, i) !in fs ==>
                status.MergeFailed? && status.error.OpenFailed? && status.error.index <= i
    ensures size.Some? && AtoiPartCount(countArg) >= 1 && !faults.createFails &&
            NoShortCopies(faults, AtoiPartCount(countArg)) ==>
              forall source :: |source| == size.value && AtoiPartCount(countArg) <= |source| &&
                               HonestServer(source, Plan(size.value, AtoiPartCount(countArg)), fetch) ==>
                status == Complete && filename in fs' && fs'[filename] == source
  {
    var n := AtoiPartCount(countArg);
    if size.None? {
      return SizeUnavailable, fs;
    }
    if n == 0 {
      return DivideByZero, fs;
    }
    var parts := PlanLoop(size.value, n);
    var written := RunWorkers(fs, filename, parts, fetch);
    var err;
    fs', err := MergePartsV1(written, filename, n, faults);
    status := if err.None? then Complete else MergeFailed(err.value);
    if n > 0 && !faults.createFails {
      V1AfterMerge(fs, filename, parts, fetch, faults, fs', err);
      forall source | |source| == size.value && n <= |source| && HonestServer(source, parts, fetch)
        ensures AllFetched(parts, fetch) && Bodies(parts, fetch) == source
      {
        HonestDelivery(source, n, fetch);
      }
    }
  }
}

=== FILE: merge.dfy ===
/**
 * `mergeParts` of both variants: create (truncate) the destination, then for
 * i = 0, 1, ... open part i, append its contents to the destination and
 * remove it. The two variants differ only in what a failed copy does.
 */
module Merge {
  import opened Wrappers
  import opened Ranges
  import opened PartFiles

  datatype MergeError = CreateFailed | OpenFailed(index: nat) | CopyFailed(index: nat)

  /**
   * Failures the file system may inject: creating the destination fails, or
   * copying part i stops with an error after `shortCopies[i]` bytes.
   */
  datatype IoFaults = IoFaults(createFails: bool, shortCopies: map<nat, nat>)

  predicate Opens(fs: FileSystem, filename: string, i: nat) {
    PartName(filename, i) in fs
  }

  /** What copying part i appends: all of it, or only the prefix written before the injected error. */
  function Copied(data: seq<byte>, faults: IoFaults, i: nat): (r: seq<byte>)
    ensures r <= data
    ensures i !in faults.shortCopies ==> r == data
  {
    if i in faults.shortCopies && faults.shortCopies[i] < |data| then data[..faults.shortCopies[i]] else data
  }

  /** What the destination holds after parts 0 .. k-1 have been copied. */
  function Appended(fs: FileSystem, filename: string, faults: IoFaults, k: nat): seq<byte>
    requires forall j :: 0 <= j < k ==> Opens(fs, filename, j)
  {
    if k == 0 then []
    else
      assert Opens(fs, filename, k - 1);
      Appended(fs, filename, faults, k - 1) + Copied(fs[PartName(filename, k - 1)], faults, k - 1)
  }

  /** The file system once parts 0 .. k-1 have been merged into `filename` and removed. */
  function AfterMerge(fs: FileSystem, filename: string, faults: IoFaults, k: nat): FileSystem
    requires forall j :: 0 <= j < k ==> Opens(fs, filename, j)
  {
    (fs - PartNames(filename, k))[filename := Appended(fs, filename, faults, k)]
  }

  /** The smallest index from `from` on whose part is missing or whose copy fails, or the end of the loop. */
  function FirstFault(fs: FileSystem, filename: string, faults: IoFaults, count: int, from: nat): (k: nat)
    ensures from <= k
    ensures from <= count ==> k <= count
    ensures count < from ==> k == from
    ensures k < count ==> !Opens(fs, filename, k) || k in faults.shortCopies
    ensures forall j :: from <= j < k ==> Opens(fs, filename, j) && j !in faults.shortCopies
    decreases count - from
  {
    if count <= from then from
    else if !Opens(fs, filename, from) || from in faults.shortCopies then from
    else FirstFault(fs, filename, faults, count, from + 1)
  }

  /** The smallest index from `from` on whose part is missing, or the end of the loop. */
  function FirstMissing(fs: FileSystem, filename: string, count: int, from: nat): (k: nat)
    ensures from <= k
    ensures from <= count ==> k <= count
    ensures count < from ==> k == from
    ensures k < count ==> !Opens(fs, filename, k)
    ensures forall j :: from <= j < k ==> Opens(fs, filename, j)
    decreases count - from
  {
    if count <= from then from
    else if !Opens(fs, filename, from) then from
    else FirstMissing(fs, filename, count, from + 1)
  }

  /**
   * The outcome of main.go's merge. A failed create changes nothing. Otherwise,
   * with k the first part that is missing or fails to copy: parts 0 .. k-1
   * are appended in order and removed; a missing part k stops the merge with
   * an open error and stays untouched, a part k whose copy fails is appended
   * as far as it got, removed, and reported. Every file other than the
   * destination and the removed parts is unchanged.
   */
  predicate MergeOutcome(fs: FileSystem, filename: string, count: int, faults: IoFaults,
                         fs': FileSystem, err: Option<MergeError>)
  {
    if faults.createFails then fs' == fs && err == Some(CreateFailed)
    else
      var k := FirstFault(fs, filename, faults, count, 0);
      var done := if k < count && Opens(fs, filename, k) then k + 1 else k;
      && fs' == AfterMerge(fs, filename, faults, done)
      && err == if count <= k then None
                else if Opens(fs, filename, k) then Some(CopyFailed(k))
                else Some(OpenFailed(k))
  }

  /**
   * The outcome of mainv1.go's merge. With k the first missing part: parts
   * 0 .. k-1 are appended in order (a failed copy contributes what it got
   * and is otherwise ignored) and removed; a missing part k stops the merge
   * with an open error. Every other file is unchanged.
   */
  predicate MergeOutcomeV1(fs: FileSystem, filename: string, count: int, faults: IoFaults,
                           fs': FileSystem, err: Option<MergeError>)
  {
    if faults.createFails then fs' == fs && err == Some(CreateFailed)
    else
      var k := FirstMissing(fs, filename, count, 0);
      && fs' == AfterMerge(fs, filename, faults, k)
      && err == if count <= k then None else Some(OpenFailed(k))
  }

  /** Part i is still where the workers left it while the parts before it are being merged. */
  lemma NotYetMerged(fs: FileSystem, filename: string, faults: IoFaults, i: nat, acc: FileSystem)
    requires forall j :: 0 <= j < i ==> Opens(fs, filename, j)
    requires acc == AfterMerge(fs, filename, faults, i)
    ensures PartName(filename, i) in acc <==> Opens(fs, filename, i)
    ensures Opens(fs, filename, i) ==> acc[PartName(filename, i)] == fs[PartName(filename, i)]
  {
    PartNameNotEarlier(filename, i, i);
    assert PartName(filename, i) != filename;
  }

  /** The loop stops at i when i is the first faulty index. */
  lemma FirstFaultAt(fs: FileSystem, filename: string, faults: IoFaults, count: int, i: nat)
    requires forall j :: 0 <= j < i ==> Opens(fs, filename, j) && j !in faults.shortCopies
    requires i < count && (!Opens(fs, filename, i) || i in faults.shortCopies)
    ensures FirstFault(fs, filename, faults, count, 0) == i
  {
  }

  /** The loop that runs to its end saw no faulty index. */
  lemma FirstFaultNone(fs: FileSystem, filename: string, faults: IoFaults, count: int, i: nat)
    requires forall j :: 0 <= j < i ==> Opens(fs, filename, j) && j !in faults.shortCopies
    requires i == count || (i == 0 && count <= 0)
    ensures FirstFault(fs, filename, faults, count, 0) == i
  {
  }

  /** The loop stops at i when i is the first missing index. */
  lemma FirstMissingAt(fs: FileSystem, filename: string, count: int, i: nat)
    requires forall j :: 0 <= j < i ==> Opens(fs, filename, j)
    requires i < count && !Opens(fs, filename, i)
    ensures FirstMissing(fs, filename, count, 0) == i
  {
  }

  /** The loop that runs to its end saw no missing index. */
  lemma FirstMissingNone(fs: FileSystem, filename: string, count: int, i: nat)
    requires forall j :: 0 <= j < i ==> Opens(fs, filename, j)
    requires i == count || (i == 0 && count <= 0)
    ensures FirstMissing(fs, filename, count, 0) == i
  {
  }

  /** Copying part i and removing it, as one loop iteration does, merges one more part. */
  lemma AppendStep(fs: FileSystem, filename: string, faults: IoFaults, i: nat, acc: FileSystem)
    requires forall j :: 0 <= j <= i ==> Opens(fs, filename, j)
    requires acc == AfterMerge(fs, filename, faults, i)
    ensures PartName(filename, i) in acc
    ensures acc[filename := acc[filename] + Copied(acc[PartName(filename, i)], faults, i)] - {PartName(filename, i)}
            == AfterMerge(fs, filename, faults, i + 1)
  {
    var name := PartName(filename, i);
    assert Opens(fs, filename, i);
    PartNameNotEarlier(filename, i, i);
    assert name != filename;
    assert PartNames(filename, i + 1) == PartNames(filename, i) + {name};
  }

  /** `mergeParts` of main.go: stops at the first missing part or failed copy. */
  method MergeParts(fs: FileSystem, filename: string, count: int, faults: IoFaults)
    returns (fs': FileSystem, err: Option<MergeError>)
    ensures MergeOutcome(fs, filename, count, faults, fs', err)
  {
    if faults.createFails {
      return fs, Some(CreateFailed);
    }
    fs' := fs[filename := []];
    var i := 0;
    while i < count
      invariant 0 <= i && (i <= count || i == 0)
      invariant forall j :: 0 <= j < i ==> Opens(fs, filename, j) && j !in faults.shortCopies
      invariant fs' == AfterMerge(fs, filename, faults, i)
    {
      var name := PartName(filename, i);
      NotYetMerged(fs, filename, faults, i, fs');
      if name !in fs' {
        FirstFaultAt(fs, filename, faults, count, i);
        return fs', Some(OpenFailed(i));
      }
      AppendStep(fs, filename, faults, i, fs');
      fs' := fs'[filename := fs'[filename] + Copied(fs'[name], faults, i)];
      fs' := fs' - {name};
      if i in faults.shortCopies {
        FirstFaultAt(fs, filename, faults, count, i);
        return fs', Some(CopyFailed(i));
      }
      i := i + 1;
    }
    FirstFaultNone(fs, filename, faults, count, i);
    return fs', None;
  }

  /** `mergeParts` of mainv1.go: stops only at the first missing part. */
  method MergePartsV1(fs: FileSystem, filename: string, count: int, faults: IoFaults)
    returns (fs': FileSystem, err: Option<MergeError>)
    ensures MergeOutcomeV1(fs, filename, count, faults, fs', err)
  {
    if faults.createFails {
      return fs, Some(CreateFailed);
    }
    fs' := fs[filename := []];
    var i := 0;
    while i < count
      invariant 0 <= i && (i <= count || i == 0)
      invariant forall j :: 0 <= j < i ==> Opens(fs, filename, j)
      invariant fs' == AfterMerge(fs, filename, faults, i)
    {
      var name := PartName(filename, i);
      NotYetMerged(fs, filename, faults, i, fs');
      if name !in fs' {
        FirstMissingAt(fs, filename, count, i);
        return fs', Some(OpenFailed(i));
      }
      AppendStep(fs, filename, faults, i, fs');
      fs' := fs'[filename := fs'[filename] + Copied(fs'[name], faults, i)];
      fs' := fs' - {name};
      i := i + 1;
    }
    FirstMissingNone(fs, filename, count, i);
    return fs', None;
  }

  /** Once every worker has written its part, every part of the plan can be opened and holds its body. */
  lemma WorkersWroteAll(fs: FileSystem, filename: string, parts: seq<PartSpec>, fetch: PartSpec -> FetchOutcome)
    requires Indexed(parts) && AllFetched(parts, fetch)
    ensures forall j :: 0 <= j < |parts| ==>
              && Opens(RunWorkers(fs, filename, parts, fetch), filename, j)
              && RunWorkers(fs, filename, parts, fetch)[PartName(filename, j)] == fetch(parts[j]).data
  {
    forall j | 0 <= j < |parts|
      ensures Opens(RunWorkers(fs, filename, parts, fetch), filename, j)
      ensures RunWorkers(fs, filename, parts, fetch)[PartName(filename, j)] == fetch(parts[j]).data
    {
      WorkersWrite(fs, filename, parts, fetch, j);
    }
  }

  /** Without injected copy errors, appending files that hold the bodies gives the bodies in index order. */
  lemma {:induction false} AppendedBodies(written: FileSystem, filename: string, parts: seq<PartSpec>,
                                          fetch: PartSpec -> FetchOutcome, faults: IoFaults, k: nat)
    requires AllFetched(parts, fetch) && k <= |parts|
    requires forall j :: 0 <= j < |parts| ==>
               Opens(written, filename, j) && written[PartName(filename, j)] == fetch(parts[j]).data
    requires forall j :: 0 <= j < k ==> j !in faults.shortCopies
    ensures Appended(written, filename, faults, k) == Bodies(parts[..k], fetch)
  {
    if k > 0 {
      AppendedBodies(written, filename, parts, fetch, faults, k - 1);
      var prefix := parts[..k];
      assert prefix[..k - 1] == parts[..k - 1];
      assert prefix[k - 1] == parts[k - 1];
      assert (k - 1) !in faults.shortCopies;
    }
  }

  /** Without injected copy errors, the merged bytes are the part files' contents in index order. */
  lemma AppendedWorkers(fs: FileSystem, filename: string, parts: seq<PartSpec>,
                        fetch: PartSpec -> FetchOutcome, faults: IoFaults, k: nat)
    requires Indexed(parts) && AllFetched(parts, fetch) && k <= |parts|
    requires forall j :: 0 <= j < k ==> j !in faults.shortCopies
    ensures forall j :: 0 <= j < |parts| ==> Opens(RunWorkers(fs, filename, parts, fetch), filename, j)
    ensures Appended(RunWorkers(fs, filename, parts, fetch), filename, faults, k) == Bodies(parts[..k], fetch)
  {
    WorkersWroteAll(fs, filename, parts, fetch);
    AppendedBodies(RunWorkers(fs, filename, parts, fetch), filename, parts, fetch, faults, k);
  }
}

=== FILE: part_files.dfy ===
/**
 * Part files on an abstract filesystem, a map from path to contents. The
 * workers of both variants write part i of `filename` to
 * `<filename>.part<i>`, and the merge opens the same name.
 */
module PartFiles {
  import opened Decimal
  import opened Ranges

  newtype byte = b: int | 0 <= b < 256

  type FileSystem = map<string, seq<byte>>

  const PartInfix: string := ".part"

  /** `fmt.Sprintf("%s.part%d", filename, index)`: never the destination itself. */
  function PartName(filename: string, index: nat): (name: string)
    ensures |name| > |filename| && name[..|filename|] == filename
  {
    filename + PartInfix + NatToDecimal(index)
  }

  /** Distinct indices give distinct part names, so no two workers share a file. */
  lemma PartNameInjective(filename: string, i: nat, j: nat)
    requires PartName(filename, i) == PartName(filename, j)
    ensures i == j
  {
    var k := |filename + PartInfix|;
    assert PartName(filename, i)[k..] == NatToDecimal(i);
    assert PartName(filename, j)[k..] == NatToDecimal(j);
    NatToDecimalInjective(i, j);
  }

  /** Names of the parts with index below k. */
  function PartNames(filename: string, k: nat): (names: set<string>)
    ensures forall i :: 0 <= i < k ==> PartName(filename, i) in names
    ensures filename !in names
  {
    set i | 0 <= i < k :: PartName(filename, i)
  }

  /** Part i is not among the names of the parts before it. */
  lemma PartNameNotEarlier(filename: string, i: nat, k: nat)
    requires k <= i
    ensures PartName(filename, i) !in PartNames(filename, k)
  {
    if PartName(filename, i) in PartNames(filename, k) {
      var j :| 0 <= j < k && PartName(filename, j) == PartName(filename, i);
      PartNameInjective(filename, i, j);
    }
  }

  /**
   * What one worker achieved: no response, no part file created, or the
   * bytes `data` copied into its part file. `lost` counts bytes read from the
   * body that never reached the file: `io.Copy` stops at a failed write and
   * the worker ignores the error.
   */
  datatype FetchOutcome = RequestFailed | PartCreateFailed | Fetched(data: seq<byte>, lost: nat) {

    /** Bytes read from the response body: those written, then those lost to a failed write. */
    function Read(): nat
      requires Fetched?
    {
      |data| + lost
    }
  }

  /**
   * The file-system effect of one worker: on a request or create error it
   * returns before anything is written, otherwise its part file is created
   * (truncated) and holds the bytes copied from the response body.
   */
  function WritePart(fs: FileSystem, filename: string, index: nat, outcome: FetchOutcome): (r: FileSystem)
    ensures r - {PartName(filename, index)} == fs - {PartName(filename, index)}
    ensures outcome.Fetched? ==> PartName(filename, index) in r && r[PartName(filename, index)] == outcome.data
    ensures !outcome.Fetched? ==> r == fs
  {
    match outcome
    case Fetched(data, _) => fs[PartName(filename, index) := data]
    case _ => fs
  }

  /** Names of the parts whose worker wrote a file. */
  function WrittenNames(filename: string, parts: seq<PartSpec>, fetch: PartSpec -> FetchOutcome): set<string> {
    set i | 0 <= i < |parts| && fetch(parts[i]).Fetched? :: PartName(filename, parts[i].index)
  }

  /**
   * All workers of a plan, applied one after another in index order. They
   * only create or overwrite files, never remove one. `WritePartsCommute`
   * shows that two workers of distinct parts may swap places.
   */
  function RunWorkers(fs: FileSystem, filename: string, parts: seq<PartSpec>, fetch: PartSpec -> FetchOutcome): (r: FileSystem)
    ensures fs.Keys <= r.Keys
  {
    if |parts| == 0 then fs
    else
      var last := |parts| - 1;
      WritePart(RunWorkers(fs, filename, parts[..last], fetch), filename, parts[last].index, fetch(parts[last]))
  }

  /**
   * Two workers of distinct parts have the same effect in either order, so
   * the order in which the goroutines finish does not change which bytes end
   * up in which part file.
   */
  lemma WritePartsCommute(fs: FileSystem, filename: string, i: nat, a: FetchOutcome, j: nat, b: FetchOutcome)
    requires i != j
    ensures WritePart(WritePart(fs, filename, i, a), filename, j, b) ==
            WritePart(WritePart(fs, filename, j, b), filename, i, a)
  {
    if PartName(filename, i) == PartName(filename, j) {
      PartNameInjective(filename, i, j);
    }
  }

  /** Each part whose worker obtained a body holds that body once all workers have run. */
  lemma {:induction false} WorkersWrite(fs: FileSystem, filename: string, parts: seq<PartSpec>,
                                        fetch: PartSpec -> FetchOutcome, i: nat)
    requires Indexed(parts) && i < |parts| && fetch(parts[i]).Fetched?
    ensures PartName(filename, i) in RunWorkers(fs, filename, parts, fetch)
    ensures RunWorkers(fs, filename, parts, fetch)[PartName(filename, i)] == fetch(parts[i]).data
  {
    var last := |parts| - 1;
    var prefix := parts[..last];
    if i < last {
      assert prefix[i] == parts[i];
      WorkersWrite(fs, filename, prefix, fetch, i);
      if fetch(parts[last]).Fetched? && PartName(filename, last) == PartName(filename, i) {
        PartNameInjective(filename, last, i);
      }
    }
  }

  /** A file whose name no worker wrote is where it was before the workers ran: every worker writes only its own part file. */
  lemma {:induction false} WorkersFrame(fs: FileSystem, filename: string, parts: seq<PartSpec>,
                                        fetch: PartSpec -> FetchOutcome, name: string)
    requires Indexed(parts) && name !in WrittenNames(filename, parts, fetch)
    ensures name in RunWorkers(fs, filename, parts, fetch) <==> name in fs
    ensures name in fs ==> RunWorkers(fs, filename, parts, fetch)[name] == fs[name]
  {
    if |parts| > 0 {
      var last := |parts| - 1;
      var prefix := parts[..last];
      WorkersFrame(fs, filename, prefix, fetch, name);
      if fetch(parts[last]).Fetched? {
        assert name != PartName(filename, parts[last].index);
      }
    }
  }

  /** Every worker of the plan obtained a body. */
  predicate AllFetched(parts: seq<PartSpec>, fetch: PartSpec -> FetchOutcome) {
    forall i :: 0 <= i < |parts| ==> fetch(parts[i]).Fetched?
  }

  /** The bodies of all parts, concatenated in index order. */
  function Bodies(parts: seq<PartSpec>, fetch: PartSpec -> FetchOutcome): seq<byte>
    requires AllFetched(parts, fetch)
  {
    if |parts| == 0 then [] else Bodies(parts[..|parts| - 1], fetch) + fetch(parts[|parts| - 1]).data
  }

  /**
   * The server answers every planned range that covers at least one byte
   * with exactly the bytes of `source` it names, and the worker writes all
   * of them. Nothing is said about an
   * empty range: its header `bytes=s-(s-1)` is not a valid int-range, and a
   * server ignores or rejects it (section 14.2 of RFC 9110). Neither variant
   * checks for a 206 status, so this is an assumption about the server, not
   * something the code enforces.
   */
  predicate HonestServer(source: seq<byte>, parts: seq<PartSpec>, fetch: PartSpec -> FetchOutcome) {
    && SliceableIn(parts, |source|)
    && forall i :: 0 <= i < |parts| && parts[i].Size() >= 1 ==> fetch(parts[i]) == Fetched(Slice(source, parts[i]), 0)
  }

  /**
   * An honest server that ignores an invalid range and answers with the
   * whole resource, as a 200 response without the range applied.
   */
  predicate RangeIgnoringServer(source: seq<byte>, parts: seq<PartSpec>, fetch: PartSpec -> FetchOutcome) {
    && HonestServer(source, parts, fetch)
    && forall i :: 0 <= i < |parts| && parts[i].Size() < 1 ==> fetch(parts[i]) == Fetched(source, 0)
  }

  /** Against an honest server, when every part covers a byte, the bodies concatenate to the slices of the source. */
  lemma {:induction false} HonestBodies(source: seq<byte>, parts: seq<PartSpec>, fetch: PartSpec -> FetchOutcome)
    requires HonestServer(source, parts, fetch)
    requires forall i :: 0 <= i < |parts| ==> parts[i].Size() >= 1
    ensures SliceableIn(parts, |source|)
    ensures AllFetched(parts, fetch) && Bodies(parts, fetch) == ConcatSlices(source, parts)
  {
    if |parts| > 0 {
      HonestBodies(source, parts[..|parts| - 1], fetch);
    }
  }

  /** When every body has n bytes, the bodies of k parts have k * n bytes. */
  lemma {:induction false} BodiesLength(parts: seq<PartSpec>, fetch: PartSpec -> FetchOutcome, n: nat)
    requires AllFetched(parts, fetch)
    requires forall i :: 0 <= i < |parts| ==> |fetch(parts[i]).data| == n
    ensures |Bodies(parts, fetch)| == |parts| * n
  {
    if |parts| > 0 {
      BodiesLength(parts[..|parts| - 1], fetch, n);
    }
  }
}

=== FILE: range_header.dfy ===
/**
 * The Range request header each worker sends, `bytes=<start>-<end>`, and a
 * reader for the one form of range-spec it is meant to be: an int-range with
 * both first-pos and last-pos present (section 14.1.2 of RFC 9110). The reader
 * accepts only `bytes=` followed by 1*DIGIT "-" 1*DIGIT with last-pos not
 * below first-pos; suffix ranges, open-ended ranges, range lists and the
 * case-insensitivity of the unit name are not modelled.
 */
module RangeHeader {
  import opened Wrappers
  import opened Decimal
  import opened Ranges

  const Unit: string := "bytes="


  /** Position of the first `c` in `s`, or |s| when there is none. */
  function IndexOf(s: string, c: char): (k: nat)
    ensures k <= |s|
    ensures k < |s| ==> s[k] == c
    ensures forall j :: 0 <= j < k ==> s[j] != c
  {
    if |s| == 0 then 0 else if s[0] == c then 0 else 1 + IndexOf(s[1..], c)
  }

  /** The (first-pos, last-pos) pair of a valid `bytes=` int-range, or None. */
  function ParseByteRange(h: string): (r: Option<(nat, nat)>)
    ensures r.Some? ==> r.value.0 <= r.value.1
  {
    if |h| < |Unit| || h[..|Unit|] != Unit then None
    else
      var spec := h[|Unit|..];
      var dash := IndexOf(spec, '-');
      if dash == |spec| then None
      else
        var first, last := spec[..dash], spec[dash + 1..];
        if |first| == 0 || |last| == 0 || !AllDigits(first) || !AllDigits(last) then None
        else if DigitsValue(last) < DigitsValue(first) then None
        else Some((DigitsValue(first), DigitsValue(last)))
  }

  /** In `a-b` with an all-digit `a`, the first dash is the one after `a`. */
  lemma FirstDash(a: string, b: string)
    requires AllDigits(a)
    ensures IndexOf(a + "-" + b, '-') == |a|
    ensures (a + "-" + b)[..|a|] == a && (a + "-" + b)[|a| + 1..] == b
  {
    var spec := a + "-" + b;
    assert forall j :: 0 <= j < |a| ==> spec[j] == a[j];
    assert spec[|a|] == '-';
  }

  /** How the reader splits `bytes=a-b` when `a` is a run of digits. */
  lemma ParseDigitsDash(a: string, b: string)
    requires |a| >= 1 && AllDigits(a)
    ensures ParseByteRange(Unit + (a + "-" + b)) ==
              if |b| >= 1 && AllDigits(b) && DigitsValue(a) <= DigitsValue(b)
              then Some((DigitsValue(a), DigitsValue(b))) else None
  {
    var h := Unit + (a + "-" + b);
    assert h[..|Unit|] == Unit && h[|Unit|..] == a + "-" + b;
    FirstDash(a, b);
  }

  /**
   * `fmt.Sprintf("bytes=%d-%d", start, end)`. For a non-negative start the
   * text reads back as the requested range exactly when the range is
   * non-empty; an empty range such as [0, -1] yields `bytes=0--1`, which is
   * not a valid int-range.
   */
  function Header(start: int, end: int): (h: string)
    ensures |h| > |Unit| && h[..|Unit|] == Unit
    ensures 0 <= start ==> ParseByteRange(h) == if start <= end then Some((start, end)) else None
  {
    DecimalsReadBack(start, end);
    Unit + IntToDecimal(start) + "-" + IntToDecimal(end)
  }

  /** The reader's view of `bytes=%d-%d`: the case analysis behind `Header`'s contract. */
  lemma DecimalsReadBack(start: int, end: int)
    ensures 0 <= start ==>
              ParseByteRange(Unit + IntToDecimal(start) + "-" + IntToDecimal(end)) ==
                if start <= end then Some((start, end)) else None
  {
    if 0 <= start {
      var a, b := IntToDecimal(start), IntToDecimal(end);
      assert Unit + a + "-" + b == Unit + (a + "-" + b);
      ParseDigitsDash(a, b);
      DigitsValueOfNatToDecimal(start);
      if 0 <= end {
        DigitsValueOfNatToDecimal(end);
      } else {
        assert !IsDigit(b[0]);
      }
    }
  }

  /**
   * Every header of a plan is a valid int-range naming its part's offsets,
   * except for the parts that cover no byte: with fewer bytes than parts,
   * all parts but the last send `bytes=0--1`; for an empty resource that is
   * every part.
   */
  lemma PlanHeaders(size: nat, count: nat, i: nat)
    requires i < count
    ensures var p := Plan(size, count)[i];
            ParseByteRange(Header(p.start, p.end)) ==
              if size >= count || (i == count - 1 && size >= 1) then Some((p.start, p.end)) else None
  {
    PlanContiguous(size, count);
    PlanPartNonEmpty(size, count, i);
  }
}

=== FILE: ranges.dfy ===
/**
 * The range planner of both downloader variants: a resource of `size` bytes
 * is split into `count` inclusive byte ranges, the last one absorbing the
 * remainder of the integer division. Offsets are unbounded integers, so Go's
 * overflow of `i * chunkSize` is not modelled.
 */
module Ranges {

  /** One planned part: its index and the inclusive offsets `start` and `end` it asks for. */
  datatype PartSpec = PartSpec(index: nat, start: int, end: int) {

    /** Number of bytes the part covers (`end - start + 1`); negative sizes do not arise from a plan. */
    function Size(): int {
      end - start + 1
    }

    predicate Contains(offset: int) {
      start <= offset <= end
    }
  }

  /** Part i sits at position i of the sequence. */
  predicate Indexed(parts: seq<PartSpec>) {
    forall i :: 0 <= i < |parts| ==> parts[i].index == i
  }

  /** Every part covers zero or more bytes. */
  predicate NonNegativeSizes(parts: seq<PartSpec>) {
    forall i :: 0 <= i < |parts| ==> parts[i].start <= parts[i].end + 1
  }

  /** Each part begins right after the previous one ends. */
  predicate Contiguous(parts: seq<PartSpec>) {
    forall i :: 0 <= i < |parts| - 1 ==> parts[i].end + 1 == parts[i + 1].start
  }

  /** The part the loop of `main` builds for index i. */
  function PartAt(size: nat, count: nat, i: nat): PartSpec
    requires i < count
  {
    var chunk := size / count;
    var start := i * chunk;
    PartSpec(i, start, if i == count - 1 then size - 1 else start + chunk - 1)
  }

  /** The whole partition loop: `count` parts, in index order. */
  function Plan(size: nat, count: nat): (parts: seq<PartSpec>)
    requires count >= 1
    ensures |parts| == count && Indexed(parts)
    ensures parts[0].start == 0 && parts[count - 1].end == size - 1
  {
    seq(count, i requires 0 <= i < count => PartAt(size, count, i))
  }

  /**
   * The partition loop as `main` runs it. A zero count is the division panic
   * before the loop and is the caller's to rule out; with a negative count
   * (possible in mainv1.go) the loop runs no iteration. For a positive count
   * it builds exactly `Plan`.
   */
  method PlanLoop(size: nat, count: int) returns (parts: seq<PartSpec>)
    requires count != 0
    ensures count < 0 ==> parts == []
    ensures count >= 1 ==> parts == Plan(size, count)
  {
    // Go's `/` truncates toward zero; Dafny's is Euclidean.
    var chunk := if count > 0 then size / count else -(size / -count);
    parts := [];
    var i := 0;
    while i < count
      invariant 0 <= i
      invariant count >= 1 ==> i <= count && parts == Plan(size, count)[..i]
      invariant count < 0 ==> parts == []
    {
      var start := i * chunk;
      var end := start + chunk - 1;
      if i == count - 1 {
        end := size - 1;
      }
      parts := parts + [PartSpec(i, start, end)];
      i := i + 1;
    }
    if count >= 1 {
      assert Plan(size, count)[..count] == Plan(size, count);
    }
  }

  /** Part i ends right before part i + 1 starts. */
  lemma PlanStep(size: nat, count: nat, i: nat)
    requires i + 1 < count
    ensures Plan(size, count)[i].end + 1 == Plan(size, count)[i + 1].start
  {
  }

  /** Part i covers zero or more bytes and starts at a non-negative offset. */
  lemma PlanPartSized(size: nat, count: nat, i: nat)
    requires i < count
    ensures 0 <= Plan(size, count)[i].start <= Plan(size, count)[i].end + 1
  {
  }

  /** Consecutive planned ranges meet without gap or overlap, and none has negative size. */
  lemma PlanContiguous(size: nat, count: nat)
    requires count >= 1
    ensures Contiguous(Plan(size, count)) && NonNegativeSizes(Plan(size, count))
    ensures forall i :: 0 <= i < count ==> 0 <= Plan(size, count)[i].start
  {
    forall i | 0 <= i < count - 1
      ensures Plan(size, count)[i].end + 1 == Plan(size, count)[i + 1].start
    {
      PlanStep(size, count, i);
    }
    forall i | 0 <= i < count
      ensures 0 <= Plan(size, count)[i].start <= Plan(size, count)[i].end + 1
    {
      PlanPartSized(size, count, i);
    }
  }

  /** Size of the remainder-absorbing last part: at least one chunk, less than a chunk plus `count`. */
  lemma LastPartSize(size: nat, count: nat)
    requires count >= 1
    ensures var last := Plan(size, count)[count - 1];
            && last.Size() == size - (count - 1) * (size / count)
            && size / count <= last.Size() < size / count + count
  {
  }

  /** With one part the plan is the single range [0, size - 1], a plain full download. */
  lemma SinglePart(size: nat)
    ensures Plan(size, 1) == [PartSpec(0, 0, size - 1)]
  {
  }

  /** More parts than bytes: the chunk is 0 and every part but the last asks for the empty range [0, -1]. */
  lemma DegeneratePlan(size: nat, count: nat)
    requires size < count
    ensures forall i :: 0 <= i < count - 1 ==> Plan(size, count)[i] == PartSpec(i, 0, -1)
  {
  }

  /** More parts than bytes: the last part asks for the whole resource, [0, size - 1]. */
  lemma DegenerateLastPart(size: nat, count: nat)
    requires size < count
    ensures Plan(size, count)[count - 1] == PartSpec(count - 1, 0, size - 1)
  {
    assert size / count == 0;
  }

  /** A planned part covers at least one byte exactly when no chunk is empty, or it is a non-empty last part. */
  lemma PlanPartNonEmpty(size: nat, count: nat, i: nat)
    requires i < count
    ensures Plan(size, count)[i].Size() >= 1 <==> size >= count || (i == count - 1 && size >= 1)
  {
  }

  /** Concrete plan: 10 bytes in 3 parts, the last part taking the extra byte. */
  lemma TenBytesThreeParts()
    ensures Plan(10, 3) == [PartSpec(0, 0, 2), PartSpec(1, 3, 5), PartSpec(2, 6, 9)]
  {
  }

  /** Concrete plan: 10,000,000 bytes in 4 equal parts. */
  lemma TenMillionBytesFourParts()
    ensures Plan(10_000_000, 4) == [PartSpec(0, 0, 2_499_999), PartSpec(1, 2_500_000, 4_999_999),
                                   PartSpec(2, 5_000_000, 7_499_999), PartSpec(3, 7_500_000, 9_999_999)]
  {
  }

  // ---- Properties of any contiguous sequence of ranges ----

  /** Starts never decrease along a contiguous sequence of ranges of non-negative size. */
  lemma {:induction false} StartsAscend(parts: seq<PartSpec>, i: nat, j: nat)
    requires Contiguous(parts) && NonNegativeSizes(parts)
    requires i <= j < |parts|
    ensures parts[i].start <= parts[j].start
    ensures i < j ==> parts[i].end < parts[j].start
    decreases j - i
  {
    if i < j {
      StartsAscend(parts, i + 1, j);
    }
  }

  /** Ranges of a contiguous sequence are pairwise disjoint. */
  lemma ContiguousDisjoint(parts: seq<PartSpec>, i: nat, j: nat, offset: int)
    requires Contiguous(parts) && NonNegativeSizes(parts)
    requires i < j < |parts|
    requires parts[i].Contains(offset)
    ensures !parts[j].Contains(offset)
  {
    StartsAscend(parts, i, j);
  }

  /** Some part of the sequence covers the offset. */
  predicate Covered(parts: seq<PartSpec>, offset: int) {
    exists i :: 0 <= i < |parts| && parts[i].Contains(offset)
  }

  /** Every offset between the first start and the last end lies in some part. */
  lemma {:induction false} ContiguousCovers(parts: seq<PartSpec>, offset: int) returns (i: nat)
    requires Contiguous(parts) && NonNegativeSizes(parts) && |parts| >= 1
    requires parts[0].start <= offset <= parts[|parts| - 1].end
    ensures i < |parts| && parts[i].Contains(offset)
  {
    var last := |parts| - 1;
    if offset >= parts[last].start {
      i := last;
    } else {
      var prefix := parts[..last];
      assert prefix[|prefix| - 1] == parts[last - 1];
      i := ContiguousCovers(prefix, offset);
    }
  }

  /** A part only covers offsets between the first start and the last end. */
  lemma WithinBounds(parts: seq<PartSpec>, i: nat, offset: int)
    requires Contiguous(parts) && NonNegativeSizes(parts)
    requires i < |parts| && parts[i].Contains(offset)
    ensures parts[0].start <= offset <= parts[|parts| - 1].end
  {
    StartsAscend(parts, 0, i);
    StartsAscend(parts, i, |parts| - 1);
    if i < |parts| - 1 {
      assert parts[i].end < parts[|parts| - 1].start;
    }
  }

  /** Sum of the part sizes. */
  function SumSizes(parts: seq<PartSpec>): int {
    if |parts| == 0 then 0 else SumSizes(parts[..|parts| - 1]) + parts[|parts| - 1].Size()
  }

  /** The sizes of a contiguous sequence add up to the span from the first start to the last end. */
  lemma {:induction false} SumSizesTelescopes(parts: seq<PartSpec>)
    requires Contiguous(parts) && |parts| >= 1
    ensures SumSizes(parts) == parts[|parts| - 1].end - parts[0].start + 1
  {
    if |parts| > 1 {
      var prefix := parts[..|parts| - 1];
      assert prefix[|prefix| - 1] == parts[|parts| - 2];
      SumSizesTelescopes(prefix);
    }
  }

  /**
   * The plan partitions [0, size - 1]: each offset in it lies in exactly one
   * part, no part reaches outside it, and the sizes add up to `size`.
   */
  lemma PlanPartitions(size: nat, count: nat)
    requires count >= 1
    ensures forall offset :: 0 <= offset < size ==> Covered(Plan(size, count), offset)
    ensures forall i, offset :: 0 <= i < count && Plan(size, count)[i].Contains(offset) ==> 0 <= offset < size
    ensures forall i, j, offset :: 0 <= i < j < count && Plan(size, count)[i].Contains(offset) ==>
              !Plan(size, count)[j].Contains(offset)
    ensures SumSizes(Plan(size, count)) == size
  {
    var parts := Plan(size, count);
    PlanContiguous(size, count);
    forall offset | 0 <= offset < size
      ensures Covered(parts, offset)
    {
      var i := ContiguousCovers(parts, offset);
    }
    forall i, offset | 0 <= i < count && parts[i].Contains(offset)
      ensures 0 <= offset < size
    {
      WithinBounds(parts, i, offset);
    }
    forall i, j, offset | 0 <= i < j < count && parts[i].Contains(offset)
      ensures !parts[j].Contains(offset)
    {
      ContiguousDisjoint(parts, i, j, offset);
    }
    SumSizesTelescopes(parts);
  }

  // ---- Reassembly of a source from its ranges ----

  /** Every part's range can be cut out of a source of `length` bytes. */
  predicate SliceableIn(parts: seq<PartSpec>, length: nat) {
    forall i :: 0 <= i < |parts| ==> 0 <= parts[i].start <= parts[i].end + 1 <= length
  }

  /** The bytes a part asks for, cut out of `source`. */
  function Slice<T>(source: seq<T>, p: PartSpec): seq<T>
    requires 0 <= p.start <= p.end + 1 <= |source|
  {
    source[p.start..p.end + 1]
  }

  /** The slices of all parts, concatenated in index order. */
  function ConcatSlices<T>(source: seq<T>, parts: seq<PartSpec>): seq<T>
    requires SliceableIn(parts, |source|)
  {
    if |parts| == 0 then [] else ConcatSlices(source, parts[..|parts| - 1]) + Slice(source, parts[|parts| - 1])
  }

  /** Concatenating the slices of a contiguous sequence gives back the source between its first start and last end. */
  lemma {:induction false} ConcatContiguousSlices<T>(source: seq<T>, parts: seq<PartSpec>)
    requires Contiguous(parts) && |parts| >= 1 && SliceableIn(parts, |source|)
    ensures parts[0].start <= parts[|parts| - 1].end + 1
    ensures ConcatSlices(source, parts) == source[parts[0].start..parts[|parts| - 1].end + 1]
  {
    if |parts| > 1 {
      var prefix := parts[..|parts| - 1];
      assert prefix[|prefix| - 1] == parts[|parts| - 2];
      ConcatContiguousSlices(source, prefix);
      var a, b, c := parts[0].start, parts[|parts| - 1].start, parts[|parts| - 1].end + 1;
      assert source[a..b] + source[b..c] == source[a..c];
    }
  }

  /** The planned ranges of a source, cut out and concatenated in index order, give back the whole source. */
  lemma PlanReassembles<T>(source: seq<T>, count: nat)
    requires count >= 1
    ensures SliceableIn(Plan(|source|, count), |source|)
    ensures ConcatSlices(source, Plan(|source|, count)) == source
  {
    var parts := Plan(|source|, count);
    PlanContiguous(|source|, count);
    forall i | 0 <= i < count
      ensures parts[i].end + 1 <= |source|
    {
      StartsAscend(parts, i, count - 1);
      if i < count - 1 {
        assert parts[i].end < parts[count - 1].start;
      }
    }
    ConcatContiguousSlices(source, parts);
  }
}

=== FILE: wrappers.dfy ===
/** Optional values, used for every fallible step of the downloader. */
module Wrappers {

  datatype Option<+T> = None | Some(value: T) {

    /** The carried value, or `default` when there is none. */
    function GetOr(default: T): T {
      match this
      case Some(v) => v
      case None => default
    }
  }
}
